=== FILE: README.md ===
# Column selection and row reordering for a BigQuery load

The file-upload service creates or replaces a BigQuery table from a
comma-separated file with `createOrReplaceBigQueryTableWithColumns`. Before
it submits the load job, the method does the following:

- it reads the header line and splits it into column names;
- it checks that the caller's selected columns all occur in the header;
- it samples at most the first 100 data lines, split on commas;
- it builds a schema that types every selected column as STRING;
- it rewrites each sampled row so that its fields follow the selection's
  order, and writes those rows to a temporary file on the local file system.

This project models that part of the method in Dafny and proves what it
computes.

- `java_text.dfy` (module `JavaText`) writes out the semantics of the Java
  library calls the method relies on:
  - `String.split(",")`: a string without a comma comes back whole, so the
    empty string gives one empty field. Otherwise every comma separates two
    fields, nothing is trimmed, and empty fields at the end are dropped.
  - `String.join(",", ...)`, `List.indexOf` (the first position, or -1) and
    `Collection.containsAll`.
- `column_loader.dfy` (module `ColumnLoader`) models the method itself:
  - The file is a sequence of lines, and the first line is the header.
  - The result is a `StagedLoad`: the schema and the lines the method writes
    to its local temporary file. Otherwise it is the exception the method
    throws: an empty file, selected columns missing from the header, or
    `IndexOutOfBounds` from `row.get`.
  - `Prepare` and `FromHeader` state the result as functions.
  - `CreateOrReplaceTableWithColumns` follows the method step by step with
    its own loops (`SampleRows`, `ReorderColumns`, `ProjectSample`), and is
    proved equal to `Prepare`.

Behaviour of the code worth noting:

- Header names and fields are not trimmed.
- Duplicate header names are not rejected. A column that occurs twice in the
  header is read from its first position (`FirstOccurrenceWins`).
- No types are inferred from the sample. Every column is STRING, so the
  sample only feeds the written file.
- A row with at most as many fields as a selected column's 0-based header
  position is not skipped and counted. It aborts the whole operation with
  the exception from `row.get` (`FromHeaderFailure`). Because `split` drops
  the empty fields at the end of a line, a line with a comma is such a row
  for a column exactly when every field from that column's header position
  to the end of the line is empty (`SplitLength`, `EmptyTailAborts`). A
  trailing comma on a non-empty line changes nothing
  (`TrailingCommaIgnoredInData`).
- Only the sampled lines are written; lines after the first 100 data lines
  are never sampled or written (`LinesAfterSampleIgnored`).
- The written file holds no header line (`PrepareOutput`), although the load
  job is configured to skip one leading row.
- As written, the method does not compile: the lambda at logger.java:60
  captures `headerColumns`, which is assigned at logger.java:12 and again at
  logger.java:19, so it is not effectively final (section 15.27.2 of the Java
  Language Specification). The model gives the behaviour the method has once
  that is repaired, for example by declaring the list at logger.java:19.

## Model

| member | source | states |
|---|---|---|
| JavaText.Split | logger.java:19 | `line.split(",")`: a line with no comma is one field, the whole line; no field holds a comma; with a comma, the last field kept is not empty |
| JavaText.SplitFields | logger.java:19 | the fields of `line.split(",")` are the line's pieces between commas in order, untrimmed, and only empty pieces at the end are missing |
| JavaText.SegmentsDecompose | logger.java:19 | the pieces between commas hold no comma, there is more than one exactly when the line has a comma, and joining them with commas gives the line back |
| JavaText.SplitLength | logger.java:34 | a line with a comma has at most `p` fields exactly when every piece between commas from position `p` on is empty |
| JavaText.SplitEmpty | logger.java:19 | a line splits into no fields at all exactly when it is non-empty and made of commas only |
| JavaText.TrailingCommaIgnored | logger.java:34 | a comma at the end of a non-empty line adds no field |
| JavaText.JoinOfSplit | logger.java:63 | joining the fields of a line that does not end with a comma gives the line back |
| JavaText.SegmentsOfJoin | logger.java:63 | `String.join(",", fields)` of a non-empty list of comma-free fields puts one comma between neighbours: cutting the joined line at its commas gives exactly the fields back |
| JavaText.SplitOfJoin | logger.java:63 | splitting the join of comma-free fields gives the fields back when the last of several is not empty |
| JavaText.DropTrailingEmpty | logger.java:19 | the result is a prefix of the input, what it drops is empty, and its last element is not empty |
| JavaText.IndexOf | logger.java:61 | `indexOf` is -1 exactly when the element is absent; otherwise it is the element's first position |
| JavaText.ContainsAll | logger.java:26 | `containsAll` holds exactly when every selected element occurs in the list |
| ColumnLoader.SplitLines | logger.java:34 | one row per line, in order, each the line split on commas |
| ColumnLoader.Sample | logger.java:31-36 | the sample has min(data lines, 100) rows, the `i`-th being the `i`-th data line split on commas |
| ColumnLoader.SampleRows | logger.java:31-36 | the sampling loop collects exactly the sample |
| ColumnLoader.KeepPresent | logger.java:43-48 | the kept columns are the selected ones that the header contains; when the header contains every selected column they are the selection itself, same order and repeats |
| ColumnLoader.ReorderColumns | logger.java:43-48 | the reordering loop keeps exactly the selected columns the header contains, in selection order |
| ColumnLoader.StringSchema | logger.java:51-53 | one field per column, in column order, each of type STRING |
| ColumnLoader.ProjectRow | logger.java:60-62 | a reordered row has one field per column; a failure is `IndexOutOfBounds` with the row's length |
| ColumnLoader.ProjectRowFields | logger.java:60-62 | a row can be reordered exactly when every column's first header position is a valid index into it, and then the `j`-th field is the row's field at the `j`-th column's first header position |
| ColumnLoader.FirstOccurrenceWins | logger.java:61 | for a column the header names more than once, the field comes from its first header position, never a later one |
| ColumnLoader.EmptyTailAborts | logger.java:34-61 | a line with a comma whose pieces are all empty from a selected column's header position on cannot be reordered: `row.get` at that position throws |
| ColumnLoader.ProjectRowFailure | logger.java:61 | a row that cannot be reordered fails with the header position of the first column it is too short for, and its own length |
| ColumnLoader.ProjectLineFields | logger.java:60-63 | a split line reorders and joins exactly when it reorders, and for a non-empty selection cutting the joined line at its commas gives exactly the reordered fields (an empty selection joins to "", which cuts into one empty piece) |
| ColumnLoader.ProjectLines | logger.java:59-64 | one result per row, in order, each that row reordered and joined with commas |
| ColumnLoader.FirstFailingRow | logger.java:59-64 | every row before it can be reordered and the row at it cannot |
| ColumnLoader.ProjectRows | logger.java:58-64 | success exactly when no row fails, with one joined line per row in order; otherwise the error of the first failing row |
| ColumnLoader.ProjectRowsFailsAt | logger.java:59-64 | when every row before a given row reorders and that row does not, the rows fail with that row's error |
| ColumnLoader.ProjectRowsFailure | logger.java:59-64 | failing rows fail at the first row that cannot be reordered, with the header position of the first column that row is too short for and the row's length |
| ColumnLoader.ProjectSample | logger.java:58-64 | the projection loop gives the reordered lines, or stops at the first row whose `row.get` throws, with that error |
| ColumnLoader.FromHeader | logger.java:26-64 | the selection check fails exactly when a selected column is missing from the header; every failure is that or `IndexOutOfBounds`; on success the schema is the selection, in order, all STRING |
| ColumnLoader.FromHeaderSucceeds | logger.java:26-64 | success exactly when the header contains the selection and every sampled line is long enough for every selected column's first header position |
| ColumnLoader.FromHeaderOutput | logger.java:58-64 | on success one written line per sampled line, in file order, each the line's fields at the selected columns' first header positions joined with commas |
| ColumnLoader.FromHeaderWrites | logger.java:51-64 | once the selection is in the header and every sampled line reorders to a given line, the result is the STRING schema of the selection and exactly those lines |
| ColumnLoader.FromHeaderFailsAt | logger.java:58-64 | once the selection is in the header, the operation fails with the error of the first sampled line that cannot be reordered |
| ColumnLoader.FromHeaderFailsWithRows | logger.java:26-64 | once the header contains the selection, the operation fails exactly when reordering the sample fails, and with the same error |
| ColumnLoader.FromHeaderFailure | logger.java:58-64 | a failure after the selection check is at the first sampled line that cannot be reordered, naming the header position of the first selected column that line is too short for and the line's field count |
| ColumnLoader.IdentityLine | logger.java:58-64 | selecting every column of a header without repeated names turns a line with one field per column and no trailing comma into the same line |
| ColumnLoader.IdentitySelection | logger.java:31-64 | selecting every column of such a header from such lines writes the sampled data lines back unchanged, under the all-STRING schema of the header |
| ColumnLoader.NoDataLines | logger.java:31-64 | a file with a header and no data lines succeeds with the selection's schema and writes no line |
| ColumnLoader.EmptySelection | logger.java:26-64 | an empty selection always passes the check; the schema is empty and every sampled line becomes an empty written line |
| ColumnLoader.Prepare | logger.java:17-23 | the operation fails for lack of a header exactly when the file has no line |
| ColumnLoader.PrepareOutput | logger.java:58-70 | the written file has one line per sampled data line and no header line: the `i`-th written line comes from line `i + 1` of the file |
| ColumnLoader.CommaOnlyHeader | logger.java:19-28 | a header line made of commas only has no columns, so every non-empty selection is rejected |
| ColumnLoader.LinesAfterSampleIgnored | logger.java:33 | lines after the first 100 data lines do not change the outcome |
| ColumnLoader.TrailingCommaIgnoredInData | logger.java:34 | a comma at the end of a non-empty data line does not change the outcome |
| ColumnLoader.CreateOrReplaceTableWithColumns | logger.java:17-64 | the method's steps, with its loops, give exactly `Prepare`'s result |

## Left out

- The GCS path and table identifiers built at logger.java:4-9, and the logging throughout, do not affect what is computed.
- Opening and reading the file (logger.java:15) is modelled as the sequence of its lines; character decoding is not modelled.
- The `IOException` paths (logger.java:37-40, logger.java:71-74) are not modelled, because the model has no I/O.
- Creating and writing the temporary file (logger.java:67-70) is not modelled. The result carries the lines it would hold.
- The method never uploads the temporary file: it is created on the local file system (logger.java:69-70), while the load job at logger.java:77 names an object `gs://<bucket>/<temp file name>` that the method does not create. Likewise, logger.java:15 opens the `gs://` path string with `Paths.get`, which resolves on the local file system. The model takes the file's lines as given and does not capture either.
- The sampling loop's `readLine` call for a 101st line, whose value is dropped, is not modelled; it does not change the result.
- StringSchema: `Schema.of` and `Field.of` (logger.java:51-53) are modelled as always succeeding. A selection that names a column twice passes `containsAll` and the reordering loop and gives a schema with that field name twice; whether the BigQuery client library rejects repeated field names is not captured, so `FromHeader`'s success cases may include inputs on which the library throws.
- The load-job configuration, submission, waiting and result classification (logger.java:76-102) are not modelled, because they are calls into the BigQuery client library. That includes the skip-one-leading-row setting, so the model does not show BigQuery dropping the first written line.
- The controller, the storage service and the front end in the other source files are not part of this model.

=== FILE: column_loader.dfy ===
/** The column-selection and row-reordering part of
    `createOrReplaceBigQueryTableWithColumns`: the header line is split into
    column names, the caller's selection is checked against it, at most the
    first 100 data lines are sampled, and every sampled row is reordered into
    the selection's column order, next to a schema that types every selected
    column as STRING.

    The file reader is a sequence of lines (the first one is the header); the
    result is the schema and the lines that the source writes to its temporary
    file, or the error that the source throws. */
module ColumnLoader {
  import opened JavaText

  /** How many data lines are sampled, and therefore written to the temporary file. */
  const SampleLimit: nat := 100

  /** The BigQuery standard SQL type of a schema field. The method assigns
      `StandardSQLTypeName.STRING` to every column and no other type, so that
      is the only one modelled. */
  datatype SqlType = String

  /** `Field.of(name, type)`. */
  datatype Field = Field(name: string, sqlType: SqlType)

  /** The exceptions thrown on the way to the temporary file. */
  datatype LoadError =
    | EmptyFile                                  // "File is empty or doesn't contain a header."
    | ColumnsNotInHeader                         // "Selected columns are not present in the file header."
    | IndexOutOfBounds(index: int, length: nat)  // `row.get(index)` on a row of `length` fields

  datatype Result<T> = Ok(value: T) | Err(error: LoadError)

  /** The schema the method builds and the lines it writes to its local temporary file. */
  datatype StagedLoad = StagedLoad(schema: seq<Field>, data: seq<string>)

  function Min(a: nat, b: nat): nat { if a <= b then a else b }

  /** Every line split on commas, in order. */
  function SplitLines(lines: seq<string>): (rows: seq<seq<string>>)
    ensures |rows| == |lines|
    ensures forall i :: 0 <= i < |lines| ==> rows[i] == Split(lines[i])
  {
    if lines == [] then []
    else
      var init := lines[..|lines| - 1];
      assert forall i :: 0 <= i < |init| ==> init[i] == lines[i];
      SplitLines(init) + [Split(lines[|lines| - 1])]
  }

  /** The sampled rows: the first (at most 100) data lines, in file order, each
      split on commas. */
  function Sample(data: seq<string>): (rows: seq<seq<string>>)
    ensures |rows| == Min(|data|, SampleLimit)
    ensures forall i :: 0 <= i < |rows| ==> rows[i] == Split(data[i])
  {
    SplitLines(data[..Min(|data|, SampleLimit)])
  }

  /** The sampling loop: reads data lines until the reader is exhausted or
      100 rows have been collected. */
  method SampleRows(data: seq<string>) returns (rows: seq<seq<string>>)
    ensures rows == Sample(data)
  {
    rows := [];
    var rowCount := 0;
    // `rowCount` is also the position of the next line `readLine()` returns.
    while rowCount < |data| && rowCount < SampleLimit
      invariant rowCount <= |data| && rowCount <= SampleLimit
      invariant rows == SplitLines(data[..rowCount])
    {
      var line := data[rowCount];
      assert data[..rowCount + 1][..rowCount] == data[..rowCount];
      rows := rows + [Split(line)];
      rowCount := rowCount + 1;
    }
  }

  /** The selected columns that occur in the header, in the selection's order
      (repeats kept). */
  function KeepPresent(selected: seq<string>, header: seq<string>): (columns: seq<string>)
    ensures |columns| <= |selected|
    ensures forall c :: c in columns <==> c in selected && c in header
    ensures ContainsAll(header, selected) ==> columns == selected
  {
    if selected == [] then []
    else
      var last := selected[|selected| - 1];
      var init := selected[..|selected| - 1];
      assert selected == init + [last];
      KeepPresent(init, header) + (if last in header then [last] else [])
  }

  /** The reordering loop: keeps each selected column that the header contains. */
  method ReorderColumns(selected: seq<string>, header: seq<string>) returns (reordered: seq<string>)
    ensures reordered == KeepPresent(selected, header)
  {
    reordered := [];
    for i := 0 to |selected|
      invariant reordered == KeepPresent(selected[..i], header)
    {
      assert selected[..i + 1][..i] == selected[..i];
      if selected[i] in header {
        reordered := reordered + [selected[i]];
      }
    }
    assert selected[..|selected|] == selected;
  }

  /** The schema: one field per column, in column order, every one of type STRING. */
  function StringSchema(columns: seq<string>): (schema: seq<Field>)
    ensures |schema| == |columns|
    ensures forall i :: 0 <= i < |schema| ==> schema[i].name == columns[i] && schema[i].sqlType == String
  {
    if columns == [] then []
    else [Field(columns[0], String)] + StringSchema(columns[1..])
  }

  /** The first column whose first header position is not a valid index into
      the row, or the number of columns when there is none. */
  function FirstMisfit(header: seq<string>, columns: seq<string>, row: seq<string>): (j: nat)
    ensures j <= |columns|
    ensures forall k :: 0 <= k < j ==> 0 <= IndexOf(header, columns[k]) < |row|
    ensures j < |columns| ==> !(0 <= IndexOf(header, columns[j]) < |row|)
  {
    if columns == [] then 0
    else if !(0 <= IndexOf(header, columns[0]) < |row|) then 0
    else 1 + FirstMisfit(header, columns[1..], row)
  }

  /** One row reordered: for each column, the field at the column's first
      header position; a position that is not a valid index into the row
      fails the way `row.get` does. */
  function ProjectRow(header: seq<string>, columns: seq<string>, row: seq<string>): (r: Result<seq<string>>)
    ensures r.Ok? ==> |r.value| == |columns|
    ensures r.Err? ==> r.error.IndexOutOfBounds? && r.error.length == |row|
  {
    if columns == [] then Ok([])
    else
      var index := IndexOf(header, columns[0]);
      if !(0 <= index < |row|) then Err(IndexOutOfBounds(index, |row|))
      else
        match ProjectRow(header, columns[1..], row)
        case Err(e) => Err(e)
        case Ok(rest) => Ok([row[index]] + rest)
  }

  /** A row can be reordered exactly when every column's first header
      position is a valid index into it; the `j`-th reordered field is then the
      row's field at the `j`-th column's first header position. */
  lemma {:induction false} ProjectRowFields(header: seq<string>, columns: seq<string>, row: seq<string>)
    ensures ProjectRow(header, columns, row).Ok? ==
      forall j :: 0 <= j < |columns| ==> 0 <= IndexOf(header, columns[j]) < |row|
    ensures ProjectRow(header, columns, row).Ok? ==>
      forall j :: 0 <= j < |columns| ==>
        0 <= IndexOf(header, columns[j]) < |row| &&
        ProjectRow(header, columns, row).value[j] == row[IndexOf(header, columns[j])]
  {
    if columns != [] {
      ProjectRowFields(header, columns[1..], row);
      assert forall j :: 1 <= j < |columns| ==> columns[j] == columns[1..][j - 1];
    }
  }

  /** A header that names a column more than once: the reordered field for
      that column comes from its first position in the header, never a later one. */
  lemma FirstOccurrenceWins(header: seq<string>, columns: seq<string>, row: seq<string>, j: nat, p: nat)
    requires ProjectRow(header, columns, row).Ok?
    requires j < |columns| && p < |header| && header[p] == columns[j]
    ensures IndexOf(header, columns[j]) <= p
    ensures 0 <= IndexOf(header, columns[j]) < |row| &&
      ProjectRow(header, columns, row).value[j] == row[IndexOf(header, columns[j])]
  {
    ProjectRowFields(header, columns, row);
  }

  /** Split drops the empty fields at the end of a line: a line with a comma
      whose segments are all empty from a selected column's header position on
      is too short for that column, so it cannot be reordered. */
  lemma EmptyTailAborts(header: seq<string>, selected: seq<string>, line: string, j: nat)
    requires j < |selected| && Comma in line
    requires forall k :: 0 <= k < |Segments(line)| && IndexOf(header, selected[j]) <= k ==> Segments(line)[k] == ""
    ensures ProjectRow(header, selected, Split(line)).Err?
  {
    var p := IndexOf(header, selected[j]);
    if p >= 0 {
      SplitLength(line, p);
    }
    ProjectRowFields(header, selected, Split(line));
  }

  /** A row that cannot be reordered fails with the header position and the
      length of the first column that does not fit. */
  lemma {:induction false} ProjectRowFailure(header: seq<string>, columns: seq<string>, row: seq<string>)
    requires ProjectRow(header, columns, row).Err?
    ensures FirstMisfit(header, columns, row) < |columns|
    ensures ProjectRow(header, columns, row).error ==
      IndexOutOfBounds(IndexOf(header, columns[FirstMisfit(header, columns, row)]), |row|)
  {
    if 0 <= IndexOf(header, columns[0]) < |row| {
      ProjectRowFailure(header, columns[1..], row);
    }
  }

  /** One row reordered and joined with commas, as `String.join(",", reorderedRow)`. */
  function ProjectLine(header: seq<string>, columns: seq<string>, row: seq<string>): Result<string>
  {
    match ProjectRow(header, columns, row)
    case Err(e) => Err(e)
    case Ok(fields) => Ok(Join(fields))
  }

  /** A split data line reorders and joins exactly when it reorders; cutting
      the joined line at its commas then gives back exactly the reordered
      fields, since no field of a split line holds a comma. */
  lemma ProjectLineFields(header: seq<string>, columns: seq<string>, line: string)
    ensures ProjectLine(header, columns, Split(line)).Ok? == ProjectRow(header, columns, Split(line)).Ok?
    ensures ProjectLine(header, columns, Split(line)).Ok? && columns != [] ==>
      Segments(ProjectLine(header, columns, Split(line)).value) == ProjectRow(header, columns, Split(line)).value
  {
    var row := Split(line);
    if ProjectRow(header, columns, row).Ok? && columns != [] {
      var fields := ProjectRow(header, columns, row).value;
      ProjectRowFields(header, columns, row);
      assert forall j :: 0 <= j < |fields| ==> Comma !in fields[j] by {
        forall j | 0 <= j < |fields| ensures Comma !in fields[j] {
          assert fields[j] == row[IndexOf(header, columns[j])];
        }
      }
      SegmentsOfJoin(fields);
    }
  }

  /** Every row reordered and joined on its own, failures included. */
  function ProjectLines(header: seq<string>, columns: seq<string>, rows: seq<seq<string>>): (results: seq<Result<string>>)
    ensures |results| == |rows|
    ensures forall i :: 0 <= i < |rows| ==> results[i] == ProjectLine(header, columns, rows[i])
  {
    if rows == [] then []
    else ProjectLines(header, columns, rows[..|rows| - 1]) + [ProjectLine(header, columns, rows[|rows| - 1])]
  }

  /** The position of the first failure, or the number of results when none failed. */
  function FirstFailure<T>(results: seq<Result<T>>): (i: nat)
    ensures i <= |results|
    ensures forall k :: 0 <= k < i ==> results[k].Ok?
    ensures i < |results| ==> results[i].Err?
  {
    if results == [] then 0
    else
      var init := results[..|results| - 1];
      assert forall k :: 0 <= k < |init| ==> init[k] == results[k];
      var k := FirstFailure(init);
      if k < |init| then k
      else if results[|results| - 1].Err? then |init|
      else |results|
  }

  /** The values of the results in order, or else the first failure: what a
      loop that adds one value per step gives when a step can throw. */
  function Gather<T>(results: seq<Result<T>>): (r: Result<seq<T>>)
    ensures r.Ok? == (FirstFailure(results) == |results|)
    ensures r.Ok? ==> (|r.value| == |results| &&
      forall i :: 0 <= i < |results| ==> results[i] == Ok(r.value[i]))
    ensures r.Err? ==> (FirstFailure(results) < |results| &&
      results[FirstFailure(results)] == Err(r.error))
  {
    if results == [] then Ok([])
    else
      var init := results[..|results| - 1];
      assert forall k :: 0 <= k < |init| ==> init[k] == results[k];
      match Gather(init)
      case Err(e) =>
        assert FirstFailure(results) == FirstFailure(init);
        Err(e)
      case Ok(done) =>
        assert FirstFailure(init) == |init|;
        match results[|results| - 1]
        case Err(e) => Err(e)
        case Ok(x) => Ok(done + [x])
  }

  /** The first row that cannot be reordered, or the number of rows when there is none. */
  function FirstFailingRow(header: seq<string>, columns: seq<string>, rows: seq<seq<string>>): (i: nat)
    ensures i <= |rows|
    ensures forall k :: 0 <= k < i ==> ProjectRow(header, columns, rows[k]).Ok?
    ensures i < |rows| ==> ProjectRow(header, columns, rows[i]).Err?
  {
    FirstFailure(ProjectLines(header, columns, rows))
  }

  /** Every row reordered and joined with commas, in row order; the first row
      that cannot be reordered fails the whole operation with its error. */
  function ProjectRows(header: seq<string>, columns: seq<string>, rows: seq<seq<string>>): (r: Result<seq<string>>)
    ensures r.Ok? == (FirstFailingRow(header, columns, rows) == |rows|)
    ensures r.Ok? ==> (|r.value| == |rows| &&
      forall i :: 0 <= i < |rows| ==> ProjectLine(header, columns, rows[i]) == Ok(r.value[i]))
    ensures r.Err? ==> (FirstFailingRow(header, columns, rows) < |rows| &&
      ProjectRow(header, columns, rows[FirstFailingRow(header, columns, rows)]) == Err(r.error))
  {
    Gather(ProjectLines(header, columns, rows))
  }

  /** The rows fail with the error of the first row that cannot be reordered. */
  lemma ProjectRowsFailsAt(header: seq<string>, columns: seq<string>, rows: seq<seq<string>>, i: nat)
    requires i < |rows|
    requires forall k :: 0 <= k < i ==> ProjectRow(header, columns, rows[k]).Ok?
    requires ProjectRow(header, columns, rows[i]).Err?
    ensures ProjectRows(header, columns, rows) == Err(ProjectRow(header, columns, rows[i]).error)
  {
    assert FirstFailingRow(header, columns, rows) == i;
  }

  /** Failing rows fail at the first row that cannot be reordered, with the
      header position of the first column that row is too short for. */
  lemma ProjectRowsFailure(header: seq<string>, columns: seq<string>, rows: seq<seq<string>>)
    requires ProjectRows(header, columns, rows).Err?
    ensures var i := FirstFailingRow(header, columns, rows);
      i < |rows| && FirstMisfit(header, columns, rows[i]) < |columns| &&
      ProjectRows(header, columns, rows).error ==
        IndexOutOfBounds(IndexOf(header, columns[FirstMisfit(header, columns, rows[i])]), |rows[i]|)
  {
    ProjectRowFailure(header, columns, rows[FirstFailingRow(header, columns, rows)]);
  }

  /** The projection loop: reorders and joins each sampled row. */
  method ProjectSample(header: seq<string>, columns: seq<string>, rows: seq<seq<string>>)
    returns (r: Result<seq<string>>)
    ensures r == ProjectRows(header, columns, rows)
  {
    var reorderedData := [];
    for i := 0 to |rows|
      invariant |reorderedData| == i
      invariant forall k :: 0 <= k < i ==> ProjectLine(header, columns, rows[k]) == Ok(reorderedData[k])
    {
      var projected := ProjectRow(header, columns, rows[i]);
      if projected.Err? {
        assert FirstFailingRow(header, columns, rows) == i;
        return Err(projected.error);
      }
      reorderedData := reorderedData + [Join(projected.value)];
    }
    assert FirstFailingRow(header, columns, rows) == |rows|;
    assert ProjectRows(header, columns, rows).value == reorderedData;
    return Ok(reorderedData);
  }

  /** Everything after the header line is read: the selection check, the
      sample, the reordered columns, the schema and the reordered rows. */
  function FromHeader(header: seq<string>, data: seq<string>, selected: seq<string>): (r: Result<StagedLoad>)
    // a selected column missing from the header fails before sampling and projecting
    ensures (r == Err(ColumnsNotInHeader)) == exists j :: 0 <= j < |selected| && selected[j] !in header
    ensures r.Err? ==> r.error.ColumnsNotInHeader? || r.error.IndexOutOfBounds?
    // the schema follows the selection, every field STRING
    ensures r.Ok? ==> (|r.value.schema| == |selected| &&
      forall j :: 0 <= j < |selected| ==> r.value.schema[j] == Field(selected[j], String))
  {
    if !ContainsAll(header, selected) then Err(ColumnsNotInHeader)
    else
      var columns := KeepPresent(selected, header);
      assert columns == selected;
      match ProjectRows(header, columns, Sample(data))
      case Err(e) => Err(e)
      case Ok(lines) => Ok(StagedLoad(StringSchema(columns), lines))
  }

  /** Once the header is known, the operation succeeds exactly when the header
      contains every selected column and every sampled data line is long
      enough for every selected column's first header position. */
  lemma FromHeaderSucceeds(header: seq<string>, data: seq<string>, selected: seq<string>)
    ensures FromHeader(header, data, selected).Ok? == (ContainsAll(header, selected) &&
      forall i :: 0 <= i < |data| && i < SampleLimit ==> ProjectRow(header, selected, Split(data[i])).Ok?)
  {
    if ContainsAll(header, selected) {
      var rows := Sample(data);
      assert KeepPresent(selected, header) == selected;
      assert forall i :: 0 <= i < |data| && i < SampleLimit ==> rows[i] == Split(data[i]);
    }
  }

  /** On success there is one output line per sampled data line, in file
      order: the `i`-th is the `i`-th data line's fields at the selected
      columns' first header positions, joined with commas. */
  lemma FromHeaderOutput(header: seq<string>, data: seq<string>, selected: seq<string>)
    requires FromHeader(header, data, selected).Ok?
    ensures |FromHeader(header, data, selected).value.data| == Min(|data|, SampleLimit)
    ensures forall i :: 0 <= i < |FromHeader(header, data, selected).value.data| ==>
      ProjectRow(header, selected, Split(data[i])).Ok? &&
      FromHeader(header, data, selected).value.data[i] == Join(ProjectRow(header, selected, Split(data[i])).value)
  {
    var rows := Sample(data);
    assert KeepPresent(selected, header) == selected;
    assert forall i :: 0 <= i < |rows| ==> rows[i] == Split(data[i]);
  }

  /** Once the header contains the selection, the staged load is the STRING
      schema of the selection and the given lines, as soon as each sampled
      data line reorders and joins to the line at the same position. */
  lemma FromHeaderWrites(header: seq<string>, data: seq<string>, selected: seq<string>, out: seq<string>)
    requires ContainsAll(header, selected)
    requires |out| == Min(|data|, SampleLimit)
    requires forall i :: 0 <= i < |out| ==> ProjectLine(header, selected, Split(data[i])) == Ok(out[i])
    ensures FromHeader(header, data, selected) == Ok(StagedLoad(StringSchema(selected), out))
  {
    assert KeepPresent(selected, header) == selected;
    var rows := Sample(data);
    assert forall i :: 0 <= i < |rows| ==> ProjectLine(header, selected, rows[i]) == Ok(out[i]);
    var i := FirstFailingRow(header, selected, rows);
    if i < |rows| {
      assert false;
    }
    assert ProjectRows(header, selected, rows).value == out;
  }

  /** Once the header contains the selection, the operation fails with the
      error of the first sampled data line that cannot be reordered. */
  lemma FromHeaderFailsAt(header: seq<string>, data: seq<string>, selected: seq<string>, i: nat)
    requires ContainsAll(header, selected)
    requires i < Min(|data|, SampleLimit)
    requires forall k :: 0 <= k < i ==> ProjectRow(header, selected, Split(data[k])).Ok?
    requires ProjectRow(header, selected, Split(data[i])).Err?
    ensures FromHeader(header, data, selected) == Err(ProjectRow(header, selected, Split(data[i])).error)
  {
    assert KeepPresent(selected, header) == selected;
    var rows := Sample(data);
    assert forall k :: 0 <= k <= i ==> rows[k] == Split(data[k]);
    ProjectRowsFailsAt(header, selected, rows, i);
  }

  /** Once the header contains the selection, the operation fails exactly
      when reordering the sample fails, and with the same error. */
  lemma FromHeaderFailsWithRows(header: seq<string>, data: seq<string>, selected: seq<string>)
    requires ContainsAll(header, selected)
    ensures FromHeader(header, data, selected).Err? == ProjectRows(header, selected, Sample(data)).Err?
    ensures FromHeader(header, data, selected).Err? ==>
      FromHeader(header, data, selected).error == ProjectRows(header, selected, Sample(data)).error
  {
    assert KeepPresent(selected, header) == selected;
  }

  /** When the header contains the selection and the operation still fails,
      it fails at the first sampled line that cannot be reordered, with the
      header position of the first selected column that line is too short for. */
  lemma FromHeaderFailure(header: seq<string>, data: seq<string>, selected: seq<string>)
    requires ContainsAll(header, selected)
    requires FromHeader(header, data, selected).Err?
    ensures var i := FirstFailingRow(header, selected, Sample(data));
      i < Min(|data|, SampleLimit) &&
      (forall k :: 0 <= k < i ==> ProjectRow(header, selected, Split(data[k])).Ok?) &&
      FirstMisfit(header, selected, Split(data[i])) < |selected| &&
      FromHeader(header, data, selected).error ==
        IndexOutOfBounds(IndexOf(header, selected[FirstMisfit(header, selected, Split(data[i]))]), |Split(data[i])|)
  {
    var rows := Sample(data);
    FromHeaderFailsWithRows(header, data, selected);
    ProjectRowsFailure(header, selected, rows);
    var i := FirstFailingRow(header, selected, rows);
    assert rows[i] == Split(data[i]);
    forall k | 0 <= k < i
      ensures ProjectRow(header, selected, Split(data[k])).Ok?
    {
      assert rows[k] == Split(data[k]);
    }
  }

  /** In a header that names each column once, a column's first position is its only one. */
  lemma IndexOfDistinct(header: seq<string>, j: nat)
    requires forall p, q :: 0 <= p < q < |header| ==> header[p] != header[q]
    requires j < |header|
    ensures IndexOf(header, header[j]) == j
  {
    var r := IndexOf(header, header[j]);
    assert r <= j;
  }

  /** A line with one field per header column that does not end with a comma. */
  predicate FitsHeader(header: seq<string>, line: string)
  {
    |Split(line)| == |header| && (line == [] || line[|line| - 1] != Comma)
  }

  /** Selecting every column of a header that names each column once
      reorders a line with one field per column and no trailing comma into
      the same line. */
  lemma IdentityLine(header: seq<string>, line: string)
    requires forall p, q :: 0 <= p < q < |header| ==> header[p] != header[q]
    requires FitsHeader(header, line)
    ensures ProjectLine(header, header, Split(line)) == Ok(line)
  {
    var row := Split(line);
    forall j | 0 <= j < |header|
      ensures IndexOf(header, header[j]) == j
    {
      IndexOfDistinct(header, j);
    }
    ProjectRowFields(header, header, row);
    assert ProjectRow(header, header, row).value == row;
    JoinOfSplit(line);
  }

  /** Selecting every column of a header that names each column once, from
      data lines that each have one field per column and do not end with a
      comma, writes the sampled data lines back unchanged. */
  lemma IdentitySelection(header: seq<string>, data: seq<string>)
    requires forall p, q :: 0 <= p < q < |header| ==> header[p] != header[q]
    requires forall i :: 0 <= i < Min(|data|, SampleLimit) ==> FitsHeader(header, data[i])
    ensures FromHeader(header, data, header) == Ok(StagedLoad(StringSchema(header), data[..Min(|data|, SampleLimit)]))
  {
    forall i | 0 <= i < Min(|data|, SampleLimit)
      ensures ProjectLine(header, header, Split(data[i])) == Ok(data[i])
    {
      IdentityLine(header, data[i]);
    }
    assert ContainsAll(header, header);
    FromHeaderWrites(header, data, header, data[..Min(|data|, SampleLimit)]);
  }

  /** A file with a header line and no data lines succeeds with the STRING
      schema of the selection and nothing to write. */
  lemma NoDataLines(header: seq<string>, selected: seq<string>)
    requires ContainsAll(header, selected)
    ensures FromHeader(header, [], selected) == Ok(StagedLoad(StringSchema(selected), []))
  {
    FromHeaderWrites(header, [], selected, []);
  }

  /** An empty selection is always satisfied: the schema is empty and every
      sampled data line becomes an empty output line. */
  lemma EmptySelection(header: seq<string>, data: seq<string>)
    ensures FromHeader(header, data, []) == Ok(StagedLoad([], seq(Min(|data|, SampleLimit), i => "")))
  {
    FromHeaderSucceeds(header, data, []);
    FromHeaderOutput(header, data, []);
    var staged := FromHeader(header, data, []).value;
    assert staged.data == seq(Min(|data|, SampleLimit), i => "");
  }

  /** The whole operation, from the lines of the file to the schema and the
      lines written to the temporary file: a file without a header line fails before anything else; the
      header is the first line split on commas and the data lines are the rest. */
  function Prepare(lines: seq<string>, selected: seq<string>): (r: Result<StagedLoad>)
    ensures (r == Err(EmptyFile)) == (lines == [])
  {
    if lines == [] then Err(EmptyFile)
    else FromHeader(Split(lines[0]), lines[1..], selected)
  }

  /** On success the temporary file holds one line per sampled data line and
      no header line: the `i`-th written line comes from line `i + 1` of the
      file (line 0 is the header), so no line after the 101st is written. */
  lemma PrepareOutput(lines: seq<string>, selected: seq<string>)
    requires Prepare(lines, selected).Ok?
    ensures |lines| >= 1
    ensures |Prepare(lines, selected).value.data| == Min(|lines| - 1, SampleLimit)
    ensures forall i :: 0 <= i < |Prepare(lines, selected).value.data| ==>
      ProjectLine(Split(lines[0]), selected, Split(lines[i + 1])) == Ok(Prepare(lines, selected).value.data[i])
  {
    var header, data := Split(lines[0]), lines[1..];
    FromHeaderOutput(header, data, selected);
    assert forall i :: 0 <= i < |data| ==> data[i] == lines[i + 1];
  }

  /** A header line of commas only has no columns, so any non-empty selection is rejected. */
  lemma CommaOnlyHeader(lines: seq<string>, selected: seq<string>)
    requires |lines| >= 1 && lines[0] != [] && forall k :: 0 <= k < |lines[0]| ==> lines[0][k] == Comma
    requires selected != []
    ensures Prepare(lines, selected) == Err(ColumnsNotInHeader)
  {
    SplitEmpty(lines[0]);
    assert selected[0] !in Split(lines[0]);
  }

  /** The outcome depends on the data lines only through the sample. */
  lemma SampleDecides(header: seq<string>, data: seq<string>, data': seq<string>, selected: seq<string>)
    requires Sample(data) == Sample(data')
    ensures FromHeader(header, data, selected) == FromHeader(header, data', selected)
  {
  }

  /** Lines after the first 100 data lines are never sampled or written:
      appending more lines to a file that already has 100 of them changes
      nothing. */
  lemma LinesAfterSampleIgnored(header: seq<string>, data: seq<string>, extra: seq<string>, selected: seq<string>)
    requires |data| >= SampleLimit
    ensures FromHeader(header, data + extra, selected) == FromHeader(header, data, selected)
  {
    assert Sample(data + extra) == Sample(data) by {
      assert forall i :: 0 <= i < SampleLimit ==> (data + extra)[i] == data[i];
    }
    SampleDecides(header, data + extra, data, selected);
  }

  /** A comma at the end of a non-empty data line adds no field, so it does
      not change the outcome. */
  lemma TrailingCommaIgnoredInData(header: seq<string>, data: seq<string>, selected: seq<string>, i: nat)
    requires i < |data| && data[i] != []
    ensures FromHeader(header, data[i := data[i] + [Comma]], selected) == FromHeader(header, data, selected)
  {
    TrailingCommaIgnored(data[i]);
    var data' := data[i := data[i] + [Comma]];
    assert Sample(data') == Sample(data) by {
      assert forall k :: 0 <= k < |Sample(data)| ==> Sample(data')[k] == Sample(data)[k];
    }
    SampleDecides(header, data', data, selected);
  }

  /** The source's operation up to the temporary file: each step as the source
      takes it, with the source's own loops. */
  method CreateOrReplaceTableWithColumns(lines: seq<string>, selected: seq<string>)
    returns (r: Result<StagedLoad>)
    ensures r == Prepare(lines, selected)
  {
    if |lines| == 0 {
      return Err(EmptyFile);
    }
    var headerColumns := Split(lines[0]);
    if !ContainsAll(headerColumns, selected) {
      return Err(ColumnsNotInHeader);
    }
    var rows := SampleRows(lines[1..]);
    var reorderedColumns := ReorderColumns(selected, headerColumns);
    var schema := StringSchema(reorderedColumns);
    var reorderedData := ProjectSample(headerColumns, reorderedColumns, rows);
    if reorderedData.Err? {
      return Err(reorderedData.error);
    }
    return Ok(StagedLoad(schema, reorderedData.value));
  }
}

=== FILE: java_text.dfy ===
/** The pieces of the Java standard library that the column loader relies on,
    with their Java semantics written out: `String.split(",")`,
    `String.join(",", ...)`, `List.indexOf` and `Collection.containsAll`. */
module JavaText {

  /** The field delimiter of the loader's files. */
  const Comma: char := ','

  /** `String.join(",", parts)`: the parts, with one comma between neighbours. */
  function Join(parts: seq<string>): string
  {
    if |parts| == 0 then ""
    else if |parts| == 1 then parts[0]
    else parts[0] + [Comma] + Join(parts[1..])
  }

  /** Every piece of `s` between two commas (or an end of `s`), empty pieces
      included. */
  function Segments(s: string): (r: seq<string>)
    ensures |r| >= 1
    decreases |s|
  {
    if s == [] then [""]
    else
      var rest := Segments(s[1..]);
      if s[0] == Comma then [""] + rest
      else [[s[0]] + rest[0]] + rest[1..]
  }

  /** There is more than one segment exactly when `s` holds a comma; a
      comma-free `s` is its own only segment. */
  lemma {:induction false} SegmentsCount(s: string)
    ensures (|Segments(s)| == 1) == (Comma !in s)
    ensures Comma !in s ==> Segments(s) == [s]
    decreases |s|
  {
    if s != [] {
      SegmentsCount(s[1..]);
      assert s == [s[0]] + s[1..];
      assert (Comma in s) == (s[0] == Comma || Comma in s[1..]);
    }
  }

  /** No segment holds a comma. */
  lemma {:induction false} SegmentsCommaFree(s: string)
    ensures forall i :: 0 <= i < |Segments(s)| ==> Comma !in Segments(s)[i]
    decreases |s|
  {
    if s != [] {
      SegmentsCommaFree(s[1..]);
      var rest := Segments(s[1..]);
      var r := Segments(s);
      if s[0] == Comma {
        assert forall i :: 1 <= i < |r| ==> r[i] == rest[i - 1];
      } else {
        assert forall i :: 1 <= i < |r| ==> r[i] == rest[i];
        assert r[0] == [s[0]] + rest[0];
      }
    }
  }

  /** Joining the segments gives `s` back. */
  lemma {:induction false} SegmentsJoin(s: string)
    ensures Join(Segments(s)) == s
    decreases |s|
  {
    if s != [] {
      SegmentsJoin(s[1..]);
      var rest := Segments(s[1..]);
      var r := Segments(s);
      assert s == [s[0]] + s[1..];
      if s[0] == Comma {
        assert r == [""] + rest && r[1..] == rest;
      } else if |rest| > 1 {
        assert r == [[s[0]] + rest[0]] + rest[1..] && r[1..] == rest[1..];
        assert Join(rest) == rest[0] + [Comma] + Join(rest[1..]);
      }
    }
  }

  /** The segments are the comma-free decomposition of `s`. */
  lemma SegmentsDecompose(s: string)
    ensures (|Segments(s)| == 1) == (Comma !in s)
    ensures Comma !in s ==> Segments(s) == [s]
    ensures forall i :: 0 <= i < |Segments(s)| ==> Comma !in Segments(s)[i]
    ensures Join(Segments(s)) == s
  {
    SegmentsCount(s);
    SegmentsCommaFree(s);
    SegmentsJoin(s);
  }

  /** A comma-free first piece is the first segment; the rest is segmented on its own. */
  lemma {:induction false} SegmentsAfterComma(p: string, t: string)
    requires Comma !in p
    ensures Segments(p + [Comma] + t) == [p] + Segments(t)
    decreases |p|
  {
    var s := p + [Comma] + t;
    if p == [] {
      assert s[0] == Comma && s[1..] == t;
    } else {
      assert s[0] == p[0] && s[0] != Comma;
      assert s[1..] == p[1..] + [Comma] + t;
      SegmentsAfterComma(p[1..], t);
      assert [p[0]] + p[1..] == p;
    }
  }

  /** Segmenting undoes joining: comma-free parts are exactly the segments of their join. */
  lemma {:induction false} SegmentsOfJoin(parts: seq<string>)
    requires parts != []
    requires forall i :: 0 <= i < |parts| ==> Comma !in parts[i]
    ensures Segments(Join(parts)) == parts
  {
    if |parts| == 1 {
      SegmentsDecompose(parts[0]);
    } else {
      SegmentsOfJoin(parts[1..]);
      SegmentsAfterComma(parts[0], Join(parts[1..]));
      assert [parts[0]] + parts[1..] == parts;
    }
  }

  /** The last segment is empty exactly when `s` is empty or ends with a comma. */
  lemma {:induction false} LastSegmentEmpty(s: string)
    ensures var r := Segments(s); (r[|r| - 1] == "") == (s == [] || s[|s| - 1] == Comma)
    decreases |s|
  {
    if s != [] {
      var rest := Segments(s[1..]);
      var r := Segments(s);
      LastSegmentEmpty(s[1..]);
      SegmentsDecompose(s[1..]);
      if s[0] == Comma {
        assert r == [""] + rest;
        assert r[|r| - 1] == rest[|rest| - 1];
        if |s| > 1 {
          assert s[|s| - 1] == s[1..][|s| - 2];
        }
      } else if |rest| == 1 {
        assert r == [[s[0]] + rest[0]];
        assert r[|r| - 1] != "";
        assert Comma !in s[1..];
        if |s| > 1 {
          assert s[|s| - 1] == s[1..][|s| - 2];
        }
      } else {
        assert r == [[s[0]] + rest[0]] + rest[1..];
        assert r[|r| - 1] == rest[|rest| - 1];
        assert s[1..] != [];
        assert s[|s| - 1] == s[1..][|s| - 2];
      }
    }
  }

  /** The segments are all empty exactly when `s` is made of commas only. */
  lemma {:induction false} SegmentsAllEmpty(s: string)
    ensures (forall i :: 0 <= i < |Segments(s)| ==> Segments(s)[i] == "")
        == (forall k :: 0 <= k < |s| ==> s[k] == Comma)
    decreases |s|
  {
    if s != [] {
      SegmentsAllEmpty(s[1..]);
      var rest := Segments(s[1..]);
      var r := Segments(s);
      if s[0] == Comma {
        assert r == [""] + rest;
        CommaLeadAllEmpty(s, r, rest);
      } else {
        assert r == [[s[0]] + rest[0]] + rest[1..];
        assert r[0] != "";
      }
    }
  }

  /** The step of `SegmentsAllEmpty` for a string that starts with a comma. */
  lemma CommaLeadAllEmpty(s: string, r: seq<string>, rest: seq<string>)
    requires s != [] && s[0] == Comma && r == [""] + rest
    requires (forall i :: 0 <= i < |rest| ==> rest[i] == "")
        == (forall k :: 0 <= k < |s| - 1 ==> s[1..][k] == Comma)
    ensures (forall i :: 0 <= i < |r| ==> r[i] == "")
        == (forall k :: 0 <= k < |s| ==> s[k] == Comma)
  {
    var allR := forall i :: 0 <= i < |r| ==> r[i] == "";
    var allRest := forall i :: 0 <= i < |rest| ==> rest[i] == "";
    var allS := forall k :: 0 <= k < |s| ==> s[k] == Comma;
    var allTail := forall k :: 0 <= k < |s| - 1 ==> s[1..][k] == Comma;
    if allRest {
      forall i | 0 <= i < |r| ensures r[i] == "" {
        if i > 0 { assert r[i] == rest[i - 1]; }
      }
    }
    if allR {
      forall i | 0 <= i < |rest| ensures rest[i] == "" {
        assert rest[i] == r[i + 1];
      }
    }
    assert allR == allRest;
    if allTail {
      forall k | 0 <= k < |s| ensures s[k] == Comma {
        if k > 0 { assert s[k] == s[1..][k - 1]; }
      }
    }
    if allS {
      forall k | 0 <= k < |s| - 1 ensures s[1..][k] == Comma {
        assert s[1..][k] == s[k + 1];
      }
    }
    assert allS == allTail;
  }

  /** Drops the empty strings at the end of `xs`, as `String.split` does when
      no limit is given. */
  function DropTrailingEmpty(xs: seq<string>): (r: seq<string>)
    ensures |r| <= |xs| && r == xs[..|r|]
    ensures r == [] || r[|r| - 1] != ""
    ensures forall i :: |r| <= i < |xs| ==> xs[i] == ""
  {
    if xs == [] then []
    else if xs[|xs| - 1] == "" then DropTrailingEmpty(xs[..|xs| - 1])
    else xs
  }

  /** `s.split(",")` in Java: a string with no comma comes back whole (so the
      empty string gives one empty field); otherwise every comma separates two
      fields, nothing is trimmed, and the empty fields at the end are dropped.
      No field holds a comma. */
  function Split(s: string): (fields: seq<string>)
    ensures Comma !in s ==> fields == [s]
    ensures forall i :: 0 <= i < |fields| ==> Comma !in fields[i]
    ensures Comma in s ==> fields == [] || fields[|fields| - 1] != ""
  {
    if Comma !in s then [s]
    else
      SegmentsCommaFree(s);
      var r := DropTrailingEmpty(Segments(s));
      assert forall i :: 0 <= i < |r| ==> r[i] == Segments(s)[i];
      r
  }

  /** The fields of a split line are its segments in order, with only empty
      segments missing at the end. */
  lemma SplitFields(s: string)
    ensures |Split(s)| <= |Segments(s)| && Split(s) == Segments(s)[..|Split(s)|]
    ensures forall i :: |Split(s)| <= i < |Segments(s)| ==> Segments(s)[i] == ""
  {
    SegmentsDecompose(s);
  }

  /** A line with a comma has at most `p` fields exactly when every segment
      from position `p` on is empty. */
  lemma SplitLength(s: string, p: nat)
    requires Comma in s
    ensures (|Split(s)| <= p) == (forall k :: p <= k < |Segments(s)| ==> Segments(s)[k] == "")
  {
    SplitFields(s);
    var r := Split(s);
    if r != [] && forall k :: p <= k < |Segments(s)| ==> Segments(s)[k] == "" {
      var last := |r| - 1;
      assert r[last] == Segments(s)[last] && r[last] != "";
      assert last < p;
    }
  }

  /** A line splits into no fields at all exactly when it is non-empty and
      made of commas only. */
  lemma SplitEmpty(s: string)
    ensures (Split(s) == []) == (s != [] && forall k :: 0 <= k < |s| ==> s[k] == Comma)
  {
    SegmentsAllEmpty(s);
    SegmentsDecompose(s);
    if s != [] && forall k :: 0 <= k < |s| ==> s[k] == Comma {
      assert s[0] == Comma;
    }
  }

  /** A comma at the end adds one empty segment at the end. */
  lemma {:induction false} SegmentsAppendComma(s: string)
    ensures Segments(s + [Comma]) == Segments(s) + [""]
    decreases |s|
  {
    if s == [] {
      assert Segments([Comma]) == [""] + Segments([]);
    } else {
      var t := s + [Comma];
      assert t[0] == s[0] && t[1..] == s[1..] + [Comma];
      SegmentsAppendComma(s[1..]);
    }
  }

  /** A comma at the end of a non-empty string adds no field: the empty
      field it would open is dropped. */
  lemma TrailingCommaIgnored(s: string)
    requires s != []
    ensures Split(s + [Comma]) == Split(s)
  {
    SegmentsAppendComma(s);
    SegmentsCount(s);
    var xs := Segments(s) + [""];
    assert xs[..|xs| - 1] == Segments(s);
    assert Comma in s + [Comma] by {
      assert (s + [Comma])[|s|] == Comma;
    }
    assert Split(s + [Comma]) == DropTrailingEmpty(Segments(s));
    if Comma !in s {
      assert Segments(s) == [s] && s != "";
      assert DropTrailingEmpty([s]) == [s];
    }
  }

  /** Joining the fields of a line that does not end with a comma gives the line back. */
  lemma JoinOfSplit(s: string)
    requires s == [] || s[|s| - 1] != Comma
    ensures Join(Split(s)) == s
  {
    SegmentsDecompose(s);
    if Comma in s {
      LastSegmentEmpty(s);
    }
  }

  /** Splitting undoes joining when the parts are comma-free and the last of
      several parts is not empty. */
  lemma SplitOfJoin(parts: seq<string>)
    requires parts != []
    requires forall i :: 0 <= i < |parts| ==> Comma !in parts[i]
    requires |parts| == 1 || parts[|parts| - 1] != ""
    ensures Split(Join(parts)) == parts
  {
    SegmentsOfJoin(parts);
    SegmentsDecompose(Join(parts));
  }

  /** `list.indexOf(x)`: the first position holding `x`, or -1 when there is none. */
  function IndexOf<T(==)>(xs: seq<T>, x: T): (r: int)
    ensures -1 <= r < |xs|
    ensures (r == -1) == (x !in xs)
    ensures 0 <= r ==> xs[r] == x && forall k :: 0 <= k < r ==> xs[k] != x
  {
    if xs == [] then -1
    else if xs[0] == x then 0
    else
      var k := IndexOf(xs[1..], x);
      if k == -1 then -1 else k + 1
  }

  /** `xs.containsAll(ys)`: every element of `ys` occurs in `xs`. */
  function ContainsAll<T(==)>(xs: seq<T>, ys: seq<T>): (b: bool)
    ensures b == (forall i :: 0 <= i < |ys| ==> ys[i] in xs)
  {
    if ys == [] then true
    else ys[0] in xs && ContainsAll(xs, ys[1..])
  }
}
